=== FILE: README.md ===
# my-chatbox core, modelled in Dafny

This project models the logic of the single-component React chat client
`src/App.jsx`. It covers:

- the keyword reply engine (`getReplyRule`);
- the typewriter reveal of an assistant reply (`typeWrite`);
- the session registry: `bootstrapSessions`, `createNewSession`,
  `handleSelectSession`, `handleDeleteSession`, and the first-message rename;
- the per-session record that is persisted (`getEmptySessionData`,
  `loadSessionData`), and the two persistence effects (save and load);
- the send controller `sendMessage`, including its delayed reply step.

Modules follow the component's parts:

- `Strings` is the string library the component relies on. It provides
  `includes`, `toLowerCase`, `trim`, the 20-character title cut, and decimal
  rendering of numbers.
- `Model` holds the data and the storage keys: messages, sessions, session
  records, the key/value store, and the state the app holds live.
- `Rules` is `getReplyRule`.
- `Typewriter` models `typeWrite` and the card rewrite as patches applied by
  message id. One interval firing is one `Tick`.
- `Registry` covers startup, the save and load effects, and selecting,
  creating, deleting and renaming sessions.
- `Controller` covers `sendMessage`, its 2000 ms reply step, one reveal firing
  against the live transcript, and draft edits. It also proves the registry
  invariant that every user event preserves.

React state and effects are modelled as explicit steps:

- The app state is an immutable `App` value. It holds the session list, the
  current id, the live record (`messages`, `isFixed`, `draft`), the message id
  counter, and the store.
- Every change to the live record is followed by `Save`, the save effect.
- A change of current id goes through `SwitchTo`. That is
  `setCurrentSessionId`, with React's bail-out on an unchanged value. It runs
  `Activate`: the load effect, followed by the save effect it triggers.
- The store is `map<string, Stored>`, holding the structured value each JSON
  text encodes. An entry of the wrong shape reads as absent.
- Each operation that reads the clock takes one reading, the parameter `now`
  (see "## Left out" for where the code reads it more than once). The result
  of `getRandom(1, 3)` is the parameter `pick`, with `1 <= pick <= 3`.
- The imported mock data is the parameter `mock`. It supplies the seed
  transcript and the canned replies.

The model keeps these behaviours of the code:

- The default session title is "新聊天". Explicitly created sessions are titled
  "新聊天 <n+1>".
- `isFixed` is set before the blank-input check, so a blank send still pins the
  input.
- Startup repairs only a falsy current id. A stored id that names no listed
  session is kept.
- The message id counter restarts at 1 on every mount, so new ids can repeat
  ids already stored in a transcript. `UpdateById` then rewrites every message
  with that id, as the code's `map` does.
- An empty reply never reaches 'sent'. Its interval is never cleared, because
  `index` starts at 1 after the first firing and never equals 0.

## Model

| member | source | states |
|---|---|---|
| Strings.ContainsAt | src/App.jsx:154 | `includes` holds exactly when the pattern occurs at some position of the text, not only at the start |
| Strings.LowerNoCapitals | src/App.jsx:152 | lower-casing leaves a text without capital letters unchanged |
| Strings.TrimSpec | src/App.jsx:299 | `trim` returns the infix of the draft between two all-whitespace margins; it neither starts nor ends with whitespace and is empty exactly when the draft is all whitespace |
| Strings.TrimNoSpaceEnds | src/App.jsx:299 | a text with no whitespace at either end is its own trim |
| Strings.TrimIdempotent | src/App.jsx:299 | trimming an already trimmed text changes nothing |
| Strings.Title | src/App.jsx:305 | the title is the text when it has at most 20 characters, otherwise exactly its first 20 characters followed by "..." |
| Strings.DecInjective | src/App.jsx:320-321 | distinct counters give distinct decimal renderings |
| Model.NewSessionId | src/App.jsx:47 | an id made from the clock is never empty |
| Model.KeysDistinct | src/App.jsx:14-18 | a session's record key never collides with the session-list key or the current-id key |
| Model.SessionKeyInjective | src/App.jsx:18 | distinct session ids have distinct record keys |
| Rules.CardId | src/App.jsx:189-196 | the card id of a random draw in [1, 3] is one of card1, card2, card3 |
| Rules.ReplyRule | src/App.jsx:151-203 | a greeting always gets the first canned reply; a card is chosen exactly when the text asks for a singer or band card and no earlier rule fires; its id is card1, card2 or card3; text matching no rule gets the apology |
| Rules.FirstFiringFrom | src/App.jsx:151-203 | the rule table read as data: the first rule at or after k that fires, with no rule between k and it firing |
| Rules.ReplyRuleIsFirstMatch | src/App.jsx:151-203 | first match wins: the chained tests give exactly the answer of the first rule in table order that fires on the lower-cased text |
| Rules.GreetingInsideWord | src/App.jsx:154-159 | "hi" fires inside words: "this" gets the greeting reply |
| Rules.GreetingBeatsCard | src/App.jsx:154-197 | a greeting beats a card request: "你好，能否介绍一下歌手" gets the greeting reply |
| Rules.GreetingIgnoresCase | src/App.jsx:152-159 | matching ignores case: "HELLO" gets the greeting reply |
| Rules.BandRequestShowsCard | src/App.jsx:189-197 | "介绍一下乐队" fires no earlier rule and gets the card for the draw |
| Typewriter.Prefix | src/App.jsx:224 | `reply.slice(0, index)` is a prefix of the reply of length min(index, length) |
| Typewriter.UpdateById | src/App.jsx:225-235 | an update by id keeps the length and order, patches every message carrying the id and leaves every other message as it was |
| Typewriter.UpdateMissingId | src/App.jsx:225-235 | an update aimed at an id that is not in the list leaves the list unchanged |
| Typewriter.CardRewrite | src/App.jsx:359-373 | the card rewrite makes each targeted message a sent card with the card id and empty content, keeping its id, role and time; all other messages are unchanged |
| Typewriter.Tick | src/App.jsx:222-240 | one firing advances the index by one, shows the next longer prefix in the target, marks it sent exactly when the interval is cleared, touches no other message, and does nothing once cleared |
| Typewriter.StaleTickHarmless | src/App.jsx:225-235 | a firing whose message is no longer in the live list changes nothing |
| Typewriter.Ticks | src/App.jsx:222-240 | repeated firings keep the list length, the target id and the reply, and leave every other message unchanged |
| Typewriter.RevealAfter | src/App.jsx:206-241 | after k firings every message with the target id shows the first min(k, length) characters and is sent exactly when the reply is non-empty and fully shown; the interval is cleared exactly then; all else is unchanged |
| Typewriter.RevealStep | src/App.jsx:222-240 | one firing takes the reveal from k-1 firings to k |
| Typewriter.RevealProgress | src/App.jsx:206-241 | after k firings, 1 <= k <= length, the target holds exactly the first k characters, is sent exactly when k is the length, and the interval is still set exactly when k is below it |
| Typewriter.RevealAt | src/App.jsx:206-241 | the target after k firings shows the first min(k, length) characters, with its status |
| Typewriter.ShownGrows | src/App.jsx:224 | what is shown after fewer firings is a prefix of what is shown after more |
| Typewriter.RevealMonotone | src/App.jsx:222-240 | the reveal never goes backwards: content only grows by extension and status only advances |
| Typewriter.EmptyReplyNeverSent | src/App.jsx:221-239 | an empty reply keeps its target typing with empty content and its interval set, however many firings pass |
| Typewriter.RevealStops | src/App.jsx:237-239 | once a non-empty reply is fully shown, further firings change nothing |
| Registry.Bootstrap | src/App.jsx:38-74 | startup yields a non-empty list, stores the list and a current id, and loads the current record; an empty store gets one created "新聊天" session stored with the empty record, and every other key keeps its value; a falsy current id falls back to the first session and only the current-id key is written; otherwise list, id and store are kept |
| Registry.BootstrapIdempotent | src/App.jsx:38-74 | running startup again over the store it left gives the same list, current id, record and store, whatever the clock reads |
| Registry.BootstrapEmptyStore | src/App.jsx:45-57 | startup over an empty store gives exactly one session, titled "新聊天", current, with the seed transcript |
| Registry.BootstrapKeepsDanglingId | src/App.jsx:58-65 | a stored current id that names no listed session is kept, and the record loaded for it is the empty one |
| Registry.Save | src/App.jsx:102-109 | the save effect writes the live record under the current key and keeps every other key, the stored list and the stored current id |
| Registry.SaveThenLoad | src/App.jsx:102-118 | round trip: loading the current session after the save effect gives back exactly the live record |
| Registry.SwitchTo | src/App.jsx:112-118 | switching to the current id changes nothing; switching elsewhere loads the new session's stored record (or the empty one) as the live record, writes only the current-id key and that session's record, keeps the stored list, and writes an existing record back unchanged |
| Registry.Mount | src/App.jsx:78-118 | mounting shows the bootstrapped list and current id with a non-empty list, the bootstrapped record live and the message counter at 1; no stored key other than the list, the current id, the current record and a freshly created record changes |
| Registry.Select | src/App.jsx:244-248 | selecting the current session does nothing; selecting another makes it current, loads its stored record or the empty one, and writes it back |
| Registry.Create | src/App.jsx:279-294 | a created session titled "新聊天 <n+1>" goes in front of the unchanged list, becomes current, and is stored with the empty record; the list is stored; every other key (other sessions' records included) keeps its value |
| Registry.Without | src/App.jsx:253 | the filtered list is no longer than the input, contains no session with the id, contains only sessions of the input, and keeps every other one |
| Registry.WithoutConcat | src/App.jsx:253 | filtering distributes over concatenation, so the remaining sessions keep their relative order |
| Registry.WithoutAbsent | src/App.jsx:253 | filtering out an id no session has leaves the list as it was |
| Registry.Delete | src/App.jsx:250-276 | after a delete the list is non-empty and stored, and the deleted record is gone; deleting the last session leaves exactly one fresh "新聊天" session, current, stored with the empty record, which becomes live when the fresh id differs from the old current id; otherwise the list is the filtered list, and deleting the current session makes the first remaining one current and loads its stored record (or the empty one) as the live record; deleting another session keeps the current id and live record |
| Registry.DeleteKeepsOtherRecords | src/App.jsx:250-276 | a delete leaves every other session's stored record unchanged, except one whose key the replacement session takes |
| Registry.ReplaceLast | src/App.jsx:255-269 | the branch that removed the last session stores exactly one fresh session with the empty record and makes it current, with the empty record live when its id differs from the old current id; keys other than the list, the current id and the fresh record keep their values |
| Registry.Rename | src/App.jsx:306-317 | the rename keeps length and order, retitles exactly the entries of the current id and leaves the others as they were |
| Controller.Send | src/App.jsx:297-351 | a send always pins the input; a blank draft changes nothing else; otherwise exactly two messages are appended with ids m{c} and m{c+1}: the trimmed text, sent, then an empty loading placeholder; the counter advances by 2, the draft is cleared and a reply is pending for the placeholder; the session is retitled only if no user message exists; ids are kept and the live record is saved; every key other than the session list and the current session's record keeps its value |
| Controller.TitleFirst | src/App.jsx:302-318 | while the transcript has no user message, the current session takes the title made from the text and the list is stored; otherwise nothing changes; no key other than the session list is written |
| Controller.Append | src/App.jsx:320-351 | the transcript gains the user message and the loading placeholder with the next two ids after its unchanged prefix; the draft is cleared and the counter advances by two |
| Controller.SendIdsDistinct | src/App.jsx:320-321 | the two messages of one send carry distinct ids |
| Controller.SendPending | src/App.jsx:320-354 | a non-blank send leaves a reply pending for the trimmed text, addressed to the message right after the user's |
| Controller.Answer | src/App.jsx:354-380 | the reply step keeps the transcript length, the sessions, the current id, the draft and the pin; it sets no interval exactly when the rule engine picks a card; the edited record is saved under the current key and no other key changes |
| Controller.AnswerTouchesPlaceholderOnly | src/App.jsx:354-380 | the reply step edits only the placeholder, into a sent card with a card1-3 id or an empty typing text; with the placeholder gone the transcript is unchanged |
| Controller.AnswerStartsTyping | src/App.jsx:376-379 | a text answer empties the placeholder, marks it typing and sets the interval on it with the chosen reply |
| Controller.TypedReplyCompletes | src/App.jsx:376-379 | typing a non-empty text answer out in full leaves the placeholder sent with exactly that text and the interval cleared |
| Controller.PlaceholderBecomesCard | src/App.jsx:358-374 | a card answer turns the placeholder into that card, sent, and sets no interval |
| Controller.TypeStep | src/App.jsx:222-240 | one firing against the live transcript changes only the messages and leaves the sessions, the current id and the counter unchanged; the edited record is saved under the current key and no other key changes |
| Controller.StaleTypeStepNoop | src/App.jsx:225-235 | a firing whose message is not in the live transcript of a synced app leaves the whole app, store included, unchanged |
| Controller.EditDraft | src/App.jsx:543 | typing replaces only the draft, the save effect writes the edited record under the current key, and no other key changes |
| Controller.EditDraftPreserves | src/App.jsx:102-109 | a draft edit keeps the registry invariant and the store in step with the app |
| Controller.BootstrapRerunNoop | src/App.jsx:38-84 | re-running startup over a store that mirrors the running app writes nothing and returns the app's own list, current id and live record |
| Controller.MountEstablishes | src/App.jsx:38-118 | startup over stored sessions with set ids gives a non-empty list and a set current id, and the store mirrors the list, the current id and the live record |
| Controller.SelectPreserves | src/App.jsx:244-248 | selecting a session keeps the registry invariant and the store in step with the app |
| Controller.CreatePreserves | src/App.jsx:279-294 | creating a session keeps the registry invariant and the store in step with the app |
| Controller.DeletePreserves | src/App.jsx:250-276 | deleting a session keeps the registry invariant and the store in step with the app |
| Controller.DeleteKeepsInv | src/App.jsx:250-276 | deleting any id leaves a non-empty list of set ids and a set current id |
| Controller.SendPreserves | src/App.jsx:297-351 | sending keeps the registry invariant and the store in step with the app |
| Controller.ReplyPreserves | src/App.jsx:354-380 | the reply step and each reveal firing keep the registry invariant and the store in step with the app |
| Controller.HandleKeepsInv | src/App.jsx:440-548 | each user event keeps the registry invariant |
| Controller.ReplayKeepsInv | src/App.jsx:440-548 | after any run of creations, deletions, selections of listed ids, edits and sends, the list is non-empty and the current id is set |
| Controller.RenameOnce | src/App.jsx:302-318 | after a non-blank send, the next send leaves every title as it is, whatever is typed in between |
| Controller.SendThenType | src/App.jsx:297-380 | a send answered with a non-empty text ends, once the text is typed in full, with the placeholder after the user message holding exactly that text, sent |
| Controller.HelloGetsFirstReply | src/App.jsx:154-159 | "hello" gets the first canned reply |
| Controller.HelloScenario | src/App.jsx:297-380 | sending "hello" ends, once typed in full, with the assistant message holding the first canned reply, sent, and the interval cleared |
| Controller.SendThenCard | src/App.jsx:354-374 | a send answered with a card ends with the placeholder after the user message being that card, sent |
| Controller.CardScenario | src/App.jsx:189-197 | sending "介绍一下乐队" ends with the assistant message being the sent card for the draw |
| Controller.DeleteOnlyScenario | src/App.jsx:255-269 | deleting the only session leaves exactly one session, titled "新聊天", current |

## Left out

- Rendering is left out: JSX, the `Card` component, Markdown and highlighting,
  the sidebar open/closed flag, the copy button and the scroll effect. They
  have no state the core depends on.
- `handleKeyDown` is left out. It only calls `sendMessage` on Enter without
  Shift.
- `findCardById` and the card catalog are left out. A card message is modelled
  by its id only.
- Timing is discrete. The 2000 ms delay is the separate `Answer` step and each
  40 ms firing is one `Tick`. No ordering of these steps is imposed beyond the
  one the lemmas state.
- React batching is left out. The save effect is modelled as running after
  every change of the live record, and the load effect on every change of the
  current id.
- A blank send always runs `Save`, while the code's save effect runs only when
  `setIsFixed(true)` changes the pin. When the store already holds the live
  record, that write stores the value already there.
- Serialisation is left out. JSON text and `localStorage` are a map of
  structured values, and a malformed or wrong-shaped entry reads as absent
  rather than throwing.
- The `|| []` and `?? false` / `?? ''` defaults in startup and the load effect
  are left out, because stored records are whole by construction.
- `toLowerCase` lowers ASCII capitals only. Strings are sequences of Unicode
  scalar values, so `length` and `slice` count code points, not UTF-16 units.
- The contents of the mock data and the images are left out. The replies are a
  parameter with at least five entries.
- Controller.CreatePreserves: requires the clock's new id to differ from the
  current id. With a repeated clock reading, React's bail-out skips the load
  effect and the live record is not reset.
- Controller.DeletePreserves: requires the clock's new id to differ from the
  current id, for the same reason.
- Controller.ReplayKeepsInv: requires every selected id to be non-empty, as
  every id the sidebar lists is.
- `bootstrapSessions()` is called on every render of `App`, not only the first;
  later results are ignored by `useState`. The model runs it once, in `Mount`;
  Controller.BootstrapRerunNoop shows a later run writes nothing.
- `Date.now()` is read twice for a new session, once for its id and once for
  `createdAt` (App.jsx:47/49, 257/259, 281/283). `NewSession` uses one reading
  for both, so `createdAt` always matches the id's number.
- `Date.now()` is read once per message in `sendMessage` (App.jsx:327, 345).
  `Append` gives the user message and the placeholder the same `createdAt`.
- The `console.log` of the chosen rule (App.jsx:356) is left out; it only
  writes to the console.
- Registry.Bootstrap: promises a set current id only when every stored
  session's id is set. A stored list with an empty first id would make the
  fallback id empty.
- Registry.Delete: promises the deleted record is gone only when the deleted id
  differs from the fresh session's id.

=== FILE: controller.dfy ===
/** The conversation controller: `sendMessage` (App.jsx:297-381), the reply step
    its 2000 ms timeout runs, one interval firing of the reveal against the live
    transcript, and draft edits; then the invariants every step keeps. */
module Controller {
  import opened Strings
  import opened Model
  import opened Rules
  import opened Typewriter
  import opened Registry

  /** A reply the timeout of `sendMessage` will produce: the placeholder's id and
      the trimmed text it answers. */
  datatype Pending = Pending(aiId: string, text: string)

  /** `m${idCounterRef.current++}`. */
  function MessageId(c: nat): string
  {
    "m" + Dec(c)
  }

  /** `messages.some(m => m.role === 'user')`. */
  predicate HasUserMessage(msgs: seq<Message>)
  {
    exists i :: 0 <= i < |msgs| && msgs[i].role == User
  }

  /** `sendMessage` up to the scheduling of its timeout. The input is pinned first,
      even for a blank draft; a blank draft then changes nothing else. Otherwise the
      session is titled after the text if it has no user message yet, the user
      message and a loading placeholder are appended with the next two ids, the
      draft is cleared, and the reply is left pending. */
  function Send(mock: Mock, a: App, now: nat): (r: (App, Option<Pending>))
    ensures r.0.live.isFixed
    ensures r.0.current == a.current
    ensures Trim(a.live.draft) == "" ==>
              && r.1 == None
              && r.0.live == a.live.(isFixed := true)
              && r.0.sessions == a.sessions && r.0.counter == a.counter
    ensures Trim(a.live.draft) != "" ==>
              var m := a.live.messages;
              var c := a.counter;
              && |r.0.live.messages| == |m| + 2
              && r.0.live.messages[..|m|] == m
              && r.0.live.messages[|m|] == Message(MessageId(c), User, TextKind, Trim(a.live.draft), None, Sent, now)
              && r.0.live.messages[|m| + 1] == Message(MessageId(c + 1), Assistant, TextKind, "", None, Loading, now)
              && r.0.counter == c + 2
              && r.0.live.draft == ""
              && r.1 == Some(Pending(MessageId(c + 1), Trim(a.live.draft)))
    ensures Trim(a.live.draft) != "" && !HasUserMessage(a.live.messages) ==>
              r.0.sessions == Rename(a.sessions, a.current, Title(Trim(a.live.draft)))
    ensures HasUserMessage(a.live.messages) ==> r.0.sessions == a.sessions
    ensures |r.0.sessions| == |a.sessions|
    ensures forall i :: 0 <= i < |a.sessions| ==> r.0.sessions[i].id == a.sessions[i].id
    ensures ReadCurrent(r.0.store) == ReadCurrent(a.store)
    ensures ReadSessions(a.store) == a.sessions ==> ReadSessions(r.0.store) == r.0.sessions
    ensures a.current != "" ==> LoadSessionData(r.0.store, a.current) == Some(r.0.live)
    ensures forall k :: k in a.store && k != SessionListKey && k != SessionKey(a.current) ==>
              k in r.0.store && r.0.store[k] == a.store[k]
  {
    var text := Trim(a.live.draft);
    var pinned := a.(live := a.live.(isFixed := true));
    if text == "" then (Save(pinned), None)
    else (Save(Append(TitleFirst(pinned, text), text, now)), Some(Pending(MessageId(a.counter + 1), text)))
  }

  /** The rename in `sendMessage`: while the live transcript has no user message the
      current session takes the title made from `text`, in the list and in the
      stored list; otherwise nothing changes. */
  function TitleFirst(a: App, text: string): (r: App)
    ensures r.current == a.current && r.live == a.live && r.counter == a.counter
    ensures HasUserMessage(a.live.messages) ==> r == a
    ensures !HasUserMessage(a.live.messages) ==>
              r.sessions == Rename(a.sessions, a.current, Title(text)) && ReadSessions(r.store) == r.sessions
    ensures |r.sessions| == |a.sessions|
    ensures forall i :: 0 <= i < |a.sessions| ==> r.sessions[i].id == a.sessions[i].id
    ensures ReadCurrent(r.store) == ReadCurrent(a.store)
    ensures ReadSessions(a.store) == a.sessions ==> ReadSessions(r.store) == r.sessions
    ensures forall k :: k in a.store && k != SessionListKey ==> k in r.store && r.store[k] == a.store[k]
  {
    if HasUserMessage(a.live.messages) then a
    else
      var next := Rename(a.sessions, a.current, Title(text));
      a.(sessions := next, store := a.store[SessionListKey := SessionList(next)])
  }

  /** The two messages `sendMessage` appends (the user's text, sent, and an empty
      loading placeholder, with the next two ids), the cleared draft and the
      pinned input. */
  function Append(a: App, text: string, now: nat): (r: App)
    ensures r.sessions == a.sessions && r.current == a.current && r.store == a.store
    ensures |r.live.messages| == |a.live.messages| + 2
    ensures r.live.messages[..|a.live.messages|] == a.live.messages
    ensures r.live.messages[|a.live.messages|] == Message(MessageId(a.counter), User, TextKind, text, None, Sent, now)
    ensures r.live.messages[|a.live.messages| + 1] == Message(MessageId(a.counter + 1), Assistant, TextKind, "", None, Loading, now)
    ensures r.live.isFixed && r.live.draft == "" && r.counter == a.counter + 2
  {
    var userMsg := Message(MessageId(a.counter), User, TextKind, text, None, Sent, now);
    var aiMsg := Message(MessageId(a.counter + 1), Assistant, TextKind, "", None, Loading, now);
    a.(live := SessionData(a.live.messages + [userMsg, aiMsg], true, ""), counter := a.counter + 2)
  }

  /** The two messages one send adds carry distinct ids. */
  lemma SendIdsDistinct(c: nat)
    ensures MessageId(c) != MessageId(c + 1)
  {
    DecInjective(c, c + 1);
    assert MessageId(c)[1..] == Dec(c);
    assert MessageId(c + 1)[1..] == Dec(c + 1);
  }

  /** The timeout of `sendMessage`: the reply rule picks the answer; a card replaces
      the placeholder at once, a text starts the typewriter on it. `pick` is the
      random draw in [1, 3]. */
  function Answer(mock: Mock, a: App, p: Pending, pick: int): (r: (App, Option<Typer>))
    requires |mock.replies| >= 5
    requires 1 <= pick <= 3
    ensures |r.0.live.messages| == |a.live.messages|
    ensures r.0.sessions == a.sessions && r.0.current == a.current && r.0.counter == a.counter
    ensures r.0.live.draft == a.live.draft && r.0.live.isFixed == a.live.isFixed
    ensures r.1.None? <==> ReplyRule(mock.replies, p.text, pick).ShowCard?
    ensures a.current != "" ==> LoadSessionData(r.0.store, a.current) == Some(r.0.live)
    ensures forall k :: k in a.store && k != SessionKey(a.current) ==> k in r.0.store && r.0.store[k] == a.store[k]
  {
    match ReplyRule(mock.replies, p.text, pick)
    case ShowCard(c) =>
      (Save(a.(live := a.live.(messages := UpdateById(a.live.messages, p.aiId, MakeCard(c))))), None)
    case Say(reply) =>
      var (ms, t) := StartTyping(a.live.messages, p.aiId, reply);
      (Save(a.(live := a.live.(messages := ms))), Some(t))
  }

  /** The reply step edits only the placeholder: the transcript keeps its length,
      every other message is untouched, the placeholder ends up a sent card or a
      typing text, and with the placeholder gone (another session is live) the
      transcript is unchanged. */
  lemma AnswerTouchesPlaceholderOnly(mock: Mock, a: App, p: Pending, pick: int)
    requires |mock.replies| >= 5
    requires 1 <= pick <= 3
    ensures var (b, t) := Answer(mock, a, p, pick);
      && |b.live.messages| == |a.live.messages|
      && b.sessions == a.sessions && b.current == a.current
      && b.live.draft == a.live.draft && b.live.isFixed == a.live.isFixed
      && (forall i :: 0 <= i < |a.live.messages| && a.live.messages[i].id != p.aiId ==>
            b.live.messages[i] == a.live.messages[i])
      && (forall i :: 0 <= i < |a.live.messages| && a.live.messages[i].id == p.aiId ==>
            if t.None? then
              b.live.messages[i].kind == CardKind && b.live.messages[i].status == Sent
              && b.live.messages[i].content == "" && b.live.messages[i].cardId.Some?
              && b.live.messages[i].cardId.value in {"card1", "card2", "card3"}
            else
              b.live.messages[i].status == Typing && b.live.messages[i].content == "")
      && ((forall i :: 0 <= i < |a.live.messages| ==> a.live.messages[i].id != p.aiId) ==>
            b.live.messages == a.live.messages)
  {
    var d := ReplyRule(mock.replies, p.text, pick);
    if (forall i :: 0 <= i < |a.live.messages| ==> a.live.messages[i].id != p.aiId) {
      match d
      case ShowCard(c) => UpdateMissingId(a.live.messages, p.aiId, MakeCard(c));
      case Say(reply) => UpdateMissingId(a.live.messages, p.aiId, BeginTyping);
    }
  }

  /** One interval firing against the live transcript, followed by the save effect. */
  function TypeStep(a: App, t: Typer): (r: (App, Typer))
    ensures r.0.sessions == a.sessions && r.0.current == a.current && r.0.counter == a.counter
    ensures r.0.live == a.live.(messages := Tick(a.live.messages, t).0)
    ensures r.1 == Tick(a.live.messages, t).1
    ensures a.current != "" ==> LoadSessionData(r.0.store, a.current) == Some(r.0.live)
    ensures forall k :: k in a.store && k != SessionKey(a.current) ==> k in r.0.store && r.0.store[k] == a.store[k]
  {
    var (ms, u) := Tick(a.live.messages, t);
    (Save(a.(live := a.live.(messages := ms))), u)
  }

  /** A firing left over from another session finds no target in the live
      transcript: the app, its store included, stays exactly as it was. */
  lemma StaleTypeStepNoop(a: App, t: Typer)
    requires Synced(a) && a.current != ""
    requires forall i :: 0 <= i < |a.live.messages| ==> a.live.messages[i].id != t.msgId
    ensures TypeStep(a, t).0 == a
  {
    StaleTickHarmless(a.live.messages, t);
    assert a.live.(messages := a.live.messages) == a.live;
    assert a.store[SessionKey(a.current) := Record(a.live)] == a.store;
  }

  /** `setInputValue` from the text area, followed by the save effect: the new
      draft reaches the current session's record and nothing else is written. */
  function EditDraft(a: App, text: string): (r: App)
    ensures r.live == a.live.(draft := text)
    ensures r.sessions == a.sessions && r.current == a.current && r.counter == a.counter
    ensures a.current != "" ==> LoadSessionData(r.store, a.current) == Some(r.live)
    ensures forall k :: k in a.store && k != SessionKey(a.current) ==> k in r.store && r.store[k] == a.store[k]
  {
    Save(a.(live := a.live.(draft := text)))
  }

  /** The registry invariant: at least one session, a current id that is set, and
      every listed session with a set id. */
  predicate Inv(a: App)
  {
    |a.sessions| > 0 && a.current != "" && IdsSet(a.sessions)
  }

  /** The store mirrors the running app: the session list, the current id and the
      live record are what is stored under their keys. */
  predicate Synced(a: App)
  {
    && ReadSessions(a.store) == a.sessions
    && ReadCurrent(a.store) == Some(a.current)
    && LoadSessionData(a.store, a.current) == Some(a.live)
  }

  /** Startup establishes both, given stored sessions whose ids are set. */
  lemma MountEstablishes(mock: Mock, st: Storage, now: nat)
    requires IdsSet(ReadSessions(st))
    ensures Inv(Mount(mock, st, now))
    ensures Synced(Mount(mock, st, now))
  {
    var b := Bootstrap(mock, st, now);
    KeysDistinct(b.current);
  }

  /** `bootstrapSessions` is evaluated again on every later render (its results
      are discarded there); over a store that mirrors the running app it writes
      nothing and finds the app's own sessions, current id and live record. */
  lemma BootstrapRerunNoop(mock: Mock, a: App, now: nat)
    requires Inv(a) && Synced(a)
    ensures Bootstrap(mock, a.store, now).store == a.store
    ensures Bootstrap(mock, a.store, now).sessions == a.sessions
    ensures Bootstrap(mock, a.store, now).current == a.current
    ensures Bootstrap(mock, a.store, now).data == a.live
  {
  }

  /** Editing the draft keeps both: the store follows the edit. */
  lemma EditDraftPreserves(a: App, text: string)
    requires Inv(a) && Synced(a)
    ensures Inv(EditDraft(a, text)) && Synced(EditDraft(a, text))
  {
  }

  /** Selecting a listed session keeps both. */
  lemma SelectPreserves(mock: Mock, a: App, id: string)
    requires Inv(a) && Synced(a)
    requires id != ""
    ensures Inv(Select(mock, a, id)) && Synced(Select(mock, a, id))
  {
    KeysDistinct(id);
  }

  /** Creating a session keeps both, for a clock reading whose id is not the current one. */
  lemma CreatePreserves(mock: Mock, a: App, now: nat)
    requires Inv(a) && Synced(a)
    requires NewSessionId(now) != a.current
    ensures Inv(Create(mock, a, now)) && Synced(Create(mock, a, now))
  {
    KeysDistinct(NewSessionId(now));
  }

  /** Deleting a session keeps both, for a clock reading whose id is not the current one. */
  lemma DeletePreserves(mock: Mock, a: App, id: string, now: nat)
    requires Inv(a) && Synced(a)
    requires NewSessionId(now) != a.current
    ensures Inv(Delete(mock, a, id, now)) && Synced(Delete(mock, a, id, now))
  {
    var r := Delete(mock, a, id, now);
    KeysDistinct(a.current);
    KeysDistinct(r.current);
    KeysDistinct(id);
    SessionKeyInjective(a.current, id);
    var next := Without(a.sessions, id);
    if |next| > 0 {
      assert next[0] in a.sessions;
    }
  }

  /** Sending keeps both: renaming keeps every id. */
  lemma SendPreserves(mock: Mock, a: App, now: nat)
    requires Inv(a) && Synced(a)
    ensures Inv(Send(mock, a, now).0) && Synced(Send(mock, a, now).0)
  {
    KeysDistinct(a.current);
  }

  /** The reply step and each firing of the reveal keep both. */
  lemma ReplyPreserves(mock: Mock, a: App, p: Pending, pick: int, t: Typer)
    requires |mock.replies| >= 5
    requires 1 <= pick <= 3
    requires Inv(a) && Synced(a)
    ensures Inv(Answer(mock, a, p, pick).0) && Synced(Answer(mock, a, p, pick).0)
    ensures Inv(TypeStep(a, t).0) && Synced(TypeStep(a, t).0)
  {
    KeysDistinct(a.current);
  }

  /** The user events of the session sidebar and the input box. */
  datatype Event =
    | NewChat(now: nat)
    | Remove(id: string, now: nat)
    | Pick(id: string)
    | Type(text: string)
    | Submit(now: nat)

  function Handle(mock: Mock, a: App, e: Event): App
  {
    match e
    case NewChat(now) => Create(mock, a, now)
    case Remove(id, now) => Delete(mock, a, id, now)
    case Pick(id) => Select(mock, a, id)
    case Type(text) => EditDraft(a, text)
    case Submit(now) => Send(mock, a, now).0
  }

  /** The app after a run of user events. */
  function Replay(mock: Mock, a: App, events: seq<Event>): App
    decreases |events|
  {
    if |events| == 0 then a else Replay(mock, Handle(mock, a, events[0]), events[1..])
  }

  /** Whatever the run of creations, deletions, selections of listed (non-empty)
      ids, edits and sends, the list is never empty and the current id stays set. */
  lemma {:induction false} ReplayKeepsInv(mock: Mock, a: App, events: seq<Event>)
    requires Inv(a)
    requires forall i :: 0 <= i < |events| && events[i].Pick? ==> events[i].id != ""
    ensures Inv(Replay(mock, a, events))
    decreases |events|
  {
    if |events| > 0 {
      HandleKeepsInv(mock, a, events[0]);
      ReplayKeepsInv(mock, Handle(mock, a, events[0]), events[1..]);
    }
  }

  /** One user event keeps the registry invariant. */
  lemma HandleKeepsInv(mock: Mock, a: App, e: Event)
    requires Inv(a)
    requires e.Pick? ==> e.id != ""
    ensures Inv(Handle(mock, a, e))
  {
    if e.Remove? {
      DeleteKeepsInv(mock, a, e.id, e.now);
    }
  }

  /** Deleting any session, listed or not, leaves a non-empty list of set ids and a
      set current id. */
  lemma DeleteKeepsInv(mock: Mock, a: App, id: string, now: nat)
    requires Inv(a)
    ensures Inv(Delete(mock, a, id, now))
  {
    var next := Without(a.sessions, id);
    if |next| > 0 { assert next[0] in a.sessions; }
  }

  /** Rename once: after a send of non-blank text, the next send leaves every
      title as it is, whatever is typed in between. */
  lemma RenameOnce(mock: Mock, a: App, now1: nat, draft: string, now2: nat)
    requires Trim(a.live.draft) != ""
    ensures var b := Send(mock, a, now1).0;
      Send(mock, EditDraft(b, draft), now2).0.sessions == b.sessions
  {
    var b := Send(mock, a, now1).0;
    var n := |a.live.messages|;
    assert b.live.messages[n].role == User;
    assert HasUserMessage(EditDraft(b, draft).live.messages);
  }

  /** Sending "hello": a reply is pending, and once the first canned reply is typed
      out in full the assistant message after the user's holds that reply and is
      sent, and the interval is cleared. */
  lemma HelloScenario(mock: Mock, a: App, now: nat, pick: int)
    requires |mock.replies| >= 5 && |mock.replies[0]| > 0
    requires 1 <= pick <= 3
    requires Trim(a.live.draft) == "hello"
    ensures Send(mock, a, now).1.Some?
    ensures var r := Answer(mock, Send(mock, a, now).0, Send(mock, a, now).1.value, pick);
      && r.1.Some?
      && var typed := Ticks(r.0.live.messages, r.1.value, |mock.replies[0]|);
         && typed.0[|a.live.messages| + 1].content == mock.replies[0]
         && typed.0[|a.live.messages| + 1].status == Sent
         && !typed.1.running
  {
    HelloGetsFirstReply(mock.replies, pick);
    SendThenType(mock, a, now, pick, mock.replies[0]);
  }

  /** A send whose text the rule engine answers with a non-empty reply: once the
      reply is typed out in full, the placeholder after the user message holds
      exactly that reply and is sent, and the interval is cleared. */
  lemma SendThenType(mock: Mock, a: App, now: nat, pick: int, reply: string)
    requires |mock.replies| >= 5
    requires 1 <= pick <= 3
    requires Trim(a.live.draft) != ""
    requires ReplyRule(mock.replies, Trim(a.live.draft), pick) == Say(reply) && |reply| > 0
    ensures Send(mock, a, now).1.Some?
    ensures var r := Answer(mock, Send(mock, a, now).0, Send(mock, a, now).1.value, pick);
      && r.1.Some?
      && var typed := Ticks(r.0.live.messages, r.1.value, |reply|);
         && typed.0[|a.live.messages| + 1].content == reply
         && typed.0[|a.live.messages| + 1].status == Sent
         && !typed.1.running
  {
    SendPending(mock, a, now);
    var sent := Send(mock, a, now);
    TypedReplyCompletes(mock, sent.0, sent.1.value, pick, |a.live.messages| + 1, reply);
  }

  /** A send of non-blank text leaves a reply pending for that text, addressed to
      the message right after the user's. */
  lemma SendPending(mock: Mock, a: App, now: nat)
    requires Trim(a.live.draft) != ""
    ensures Send(mock, a, now).1.Some?
    ensures Send(mock, a, now).1.value.text == Trim(a.live.draft)
    ensures |a.live.messages| + 1 < |Send(mock, a, now).0.live.messages|
    ensures Send(mock, a, now).0.live.messages[|a.live.messages| + 1].id == Send(mock, a, now).1.value.aiId
  {
  }

  /** When the rule engine answers with a non-empty text, the reply step starts
      typing it into the placeholder, and typing it out in full leaves the
      placeholder sent with exactly that text and the interval cleared. */
  lemma TypedReplyCompletes(mock: Mock, b: App, p: Pending, pick: int, k: nat, reply: string)
    requires |mock.replies| >= 5
    requires 1 <= pick <= 3
    requires ReplyRule(mock.replies, p.text, pick) == Say(reply) && |reply| > 0
    requires k < |b.live.messages| && b.live.messages[k].id == p.aiId
    ensures var r := Answer(mock, b, p, pick);
      && r.1.Some?
      && var typed := Ticks(r.0.live.messages, r.1.value, |reply|);
         && typed.0[k].content == reply
         && typed.0[k].status == Sent
         && !typed.1.running
  {
    AnswerStartsTyping(mock, b, p, pick, reply);
    RevealAt(b.live.messages, k, reply, |reply|);
    RevealAfter(b.live.messages, p.aiId, reply, |reply|);
    assert reply[..|reply|] == reply;
  }

  /** A text answer empties the placeholder and sets the reveal interval on it. */
  lemma AnswerStartsTyping(mock: Mock, b: App, p: Pending, pick: int, reply: string)
    requires |mock.replies| >= 5
    requires 1 <= pick <= 3
    requires ReplyRule(mock.replies, p.text, pick) == Say(reply)
    ensures Answer(mock, b, p, pick).0.live.messages == UpdateById(b.live.messages, p.aiId, BeginTyping)
    ensures Answer(mock, b, p, pick).1 == Some(Typer(p.aiId, reply, 0, true))
  {
  }

  lemma HelloGetsFirstReply(replies: seq<string>, pick: int)
    requires |replies| >= 5
    requires 1 <= pick <= 3
    ensures ReplyRule(replies, "hello", pick) == Say(replies[0])
  {
    assert Contains("hello", "hello");
    LowerNoCapitals("hello");
  }

  /** Sending "介绍一下乐队": the assistant message ends as a sent card, card `pick`. */
  lemma CardScenario(mock: Mock, a: App, now: nat, pick: int)
    requires |mock.replies| >= 5
    requires 1 <= pick <= 3
    requires Trim(a.live.draft) == "介绍一下乐队"
    ensures Send(mock, a, now).1.Some?
    ensures var r := Answer(mock, Send(mock, a, now).0, Send(mock, a, now).1.value, pick);
      && r.1.None?
      && r.0.live.messages[|a.live.messages| + 1].kind == CardKind
      && r.0.live.messages[|a.live.messages| + 1].status == Sent
      && r.0.live.messages[|a.live.messages| + 1].cardId == Some(CardId(pick))
  {
    BandRequestShowsCard(mock.replies, pick);
    SendThenCard(mock, a, now, pick, CardId(pick));
  }

  /** A send whose text the rule engine answers with a card: the placeholder after
      the user message becomes that card, sent, and no interval is set. */
  lemma SendThenCard(mock: Mock, a: App, now: nat, pick: int, c: string)
    requires |mock.replies| >= 5
    requires 1 <= pick <= 3
    requires Trim(a.live.draft) != ""
    requires ReplyRule(mock.replies, Trim(a.live.draft), pick) == ShowCard(c)
    ensures Send(mock, a, now).1.Some?
    ensures var r := Answer(mock, Send(mock, a, now).0, Send(mock, a, now).1.value, pick);
      && r.1.None?
      && r.0.live.messages[|a.live.messages| + 1].kind == CardKind
      && r.0.live.messages[|a.live.messages| + 1].status == Sent
      && r.0.live.messages[|a.live.messages| + 1].cardId == Some(c)
  {
    SendPending(mock, a, now);
    var sent := Send(mock, a, now);
    PlaceholderBecomesCard(mock, sent.0, sent.1.value, pick, |a.live.messages| + 1, c);
  }

  /** A card answer turns the placeholder into that card, sent. */
  lemma PlaceholderBecomesCard(mock: Mock, b: App, p: Pending, pick: int, k: nat, c: string)
    requires |mock.replies| >= 5
    requires 1 <= pick <= 3
    requires ReplyRule(mock.replies, p.text, pick) == ShowCard(c)
    requires k < |b.live.messages| && b.live.messages[k].id == p.aiId
    ensures var r := Answer(mock, b, p, pick);
      && r.1.None?
      && r.0.live.messages[k].kind == CardKind
      && r.0.live.messages[k].status == Sent
      && r.0.live.messages[k].cardId == Some(c)
  {
    assert Answer(mock, b, p, pick).0.live.messages == UpdateById(b.live.messages, p.aiId, MakeCard(c));
  }

  /** Deleting the only session leaves exactly one session, titled "新聊天", current. */
  lemma DeleteOnlyScenario(mock: Mock, a: App, now: nat)
    requires |a.sessions| == 1
    ensures var r := Delete(mock, a, a.sessions[0].id, now);
      && |r.sessions| == 1 && r.sessions[0].title == DefaultTitle
      && r.current == r.sessions[0].id
  {
    assert a.sessions[1..] == [];
    assert Without(a.sessions, a.sessions[0].id) == [];
  }
}

=== FILE: model.dfy ===
/** The data of the chat client: sessions, messages, the per-session record
    that is persisted, the key/value store and the state the app holds live. */
module Model {
  import opened Strings

  datatype Option<T> = None | Some(value: T)

  /** A message's `role`. */
  datatype Role = User | Assistant

  /** A message's `type`: rendered from `content`, or from the card catalog by `cardId`. */
  datatype Kind = TextKind | CardKind

  /** A message's `status`. */
  datatype Status = Loading | Typing | Sent

  /** How far a status is along loading -> typing -> sent. */
  function Rank(s: Status): nat
  {
    match s
    case Loading => 0
    case Typing => 1
    case Sent => 2
  }

  datatype Message = Message(
    id: string,
    role: Role,
    kind: Kind,
    content: string,
    cardId: Option<string>,
    status: Status,
    createdAt: int)

  datatype Session = Session(id: string, title: string, createdAt: int)

  /** What is kept per session: the transcript, the pinned-input flag and the draft. */
  datatype SessionData = SessionData(messages: seq<Message>, isFixed: bool, draft: string)

  /** The imported mock data the core reads: the seed transcript and the canned replies. */
  datatype Mock = Mock(initialMessages: seq<Message>, replies: seq<string>)

  /** A value in the key/value store, in the structured form its JSON text encodes. */
  datatype Stored = SessionList(list: seq<Session>) | Str(text: string) | Record(data: SessionData)

  type Storage = map<string, Stored>

  const SessionListKey: string := "chat_sessions"
  const CurrentSessionKey: string := "chat_current_session"

  /** Key of one session's record. */
  function SessionKey(id: string): string
  {
    "chat_session_" + id
  }

  const DefaultTitle: string := "新聊天"

  /** The record of a session nobody has written to yet: the seed transcript,
      input not pinned, empty draft. */
  function EmptySessionData(mock: Mock): SessionData
  {
    SessionData(mock.initialMessages, false, "")
  }

  /** The id given to a session created at clock reading `now`. */
  function NewSessionId(now: nat): (id: string)
    ensures id != ""
  {
    "session_" + Dec(now)
  }

  /** Every session has a non-empty id, as every id this program creates does. */
  predicate IdsSet(sessions: seq<Session>)
  {
    forall i :: 0 <= i < |sessions| ==> sessions[i].id != ""
  }

  /** Everything the running app holds: the session list, the current id, the live
      record of the current session, the message id counter and the store. */
  datatype App = App(
    sessions: seq<Session>,
    current: string,
    live: SessionData,
    counter: nat,
    store: Storage)

  /** A session's record key never collides with the two fixed keys. */
  lemma KeysDistinct(id: string)
    ensures SessionKey(id) != SessionListKey
    ensures SessionKey(id) != CurrentSessionKey
  {
    assert SessionKey(id)[12] == '_' && SessionListKey[12] == 's';
    assert SessionKey(id)[5] == 's' && CurrentSessionKey[5] == 'c';
  }

  /** Distinct sessions have distinct record keys. */
  lemma SessionKeyInjective(a: string, b: string)
    ensures SessionKey(a) == SessionKey(b) ==> a == b
  {
    if SessionKey(a) == SessionKey(b) {
      assert a == SessionKey(a)[13..];
      assert b == SessionKey(b)[13..];
    }
  }
}

=== FILE: registry.dfy ===
/** The session registry and the per-session record store: startup
    (`bootstrapSessions`, App.jsx:38-74), the two persistence effects
    (App.jsx:102-118), and switching, creating, deleting and renaming sessions
    (App.jsx:244-294, 302-318). */
module Registry {
  import opened Strings
  import opened Model

  /** The stored session list; a missing (or not list-shaped) entry reads as `[]`. */
  function ReadSessions(st: Storage): seq<Session>
  {
    if SessionListKey in st && st[SessionListKey].SessionList? then st[SessionListKey].list else []
  }

  /** The stored current id, `null` when missing. */
  function ReadCurrent(st: Storage): Option<string>
  {
    if CurrentSessionKey in st && st[CurrentSessionKey].Str? then Some(st[CurrentSessionKey].text) else None
  }

  /** JavaScript falsiness of a stored id: `null` or the empty string. */
  predicate Falsy(id: Option<string>)
  {
    id.None? || id.value == ""
  }

  /** `loadSessionData`: nothing for an empty id or a missing record. */
  function LoadSessionData(st: Storage, id: string): (r: Option<SessionData>)
  {
    if id != "" && SessionKey(id) in st && st[SessionKey(id)].Record? then Some(st[SessionKey(id)].data) else None
  }

  /** `loadSessionData(id) || getEmptySessionData()`. */
  function LoadOrEmpty(mock: Mock, st: Storage, id: string): SessionData
  {
    match LoadSessionData(st, id)
    case Some(d) => d
    case None => EmptySessionData(mock)
  }

  /** A session created at clock reading `now` with the given title. */
  function NewSession(now: nat, title: string): Session
  {
    Session(NewSessionId(now), title, now)
  }

  /** What `bootstrapSessions` returns, with the store as it leaves it. */
  datatype Boot = Boot(sessions: seq<Session>, current: string, data: SessionData, store: Storage)

  /** `bootstrapSessions`: an empty stored list is replaced by one created session
      (stored with an empty record and made current); otherwise a falsy current id
      falls back to the first session. A current id that names no listed session
      is kept as it is. The current session's record is then loaded. */
  function Bootstrap(mock: Mock, st: Storage, now: nat): (b: Boot)
    ensures |b.sessions| > 0
    ensures ReadSessions(b.store) == b.sessions && ReadCurrent(b.store) == Some(b.current)
    ensures b.data == LoadOrEmpty(mock, b.store, b.current)
    ensures |ReadSessions(st)| == 0 ==>
              && b.sessions == [NewSession(now, DefaultTitle)]
              && b.current == NewSessionId(now)
              && b.data == EmptySessionData(mock)
    ensures |ReadSessions(st)| > 0 ==> b.sessions == ReadSessions(st)
    ensures |ReadSessions(st)| > 0 && !Falsy(ReadCurrent(st)) ==> b.current == ReadCurrent(st).value && b.store == st
    ensures |ReadSessions(st)| > 0 && Falsy(ReadCurrent(st)) ==>
              && b.current == ReadSessions(st)[0].id
              && b.store == st[CurrentSessionKey := Str(ReadSessions(st)[0].id)]
    ensures |ReadSessions(st)| == 0 ==> LoadSessionData(b.store, NewSessionId(now)) == Some(EmptySessionData(mock))
    ensures |ReadSessions(st)| == 0 ==>
              forall k :: k in st && k != SessionListKey && k != CurrentSessionKey && k != SessionKey(NewSessionId(now)) ==>
                k in b.store && b.store[k] == st[k]
    ensures IdsSet(b.sessions) ==> b.current != ""
  {
    var sessions := ReadSessions(st);
    var current := ReadCurrent(st);
    if |sessions| == 0 then
      var created := NewSession(now, DefaultTitle);
      var st1 := st[SessionKey(created.id) := Record(EmptySessionData(mock))]
                   [SessionListKey := SessionList([created])]
                   [CurrentSessionKey := Str(created.id)];
      KeysDistinct(created.id);
      Boot([created], created.id, LoadOrEmpty(mock, st1, created.id), st1)
    else if Falsy(current) then
      var st1 := st[CurrentSessionKey := Str(sessions[0].id)];
      Boot(sessions, sessions[0].id, LoadOrEmpty(mock, st1, sessions[0].id), st1)
    else
      Boot(sessions, current.value, LoadOrEmpty(mock, st, current.value), st)
  }

  /** Bootstrapping again over the store the first run left gives the same
      sessions, current id, record and store, whatever the clock reads. */
  lemma BootstrapIdempotent(mock: Mock, st: Storage, now1: nat, now2: nat)
    ensures Bootstrap(mock, Bootstrap(mock, st, now1).store, now2) == Bootstrap(mock, st, now1)
  {
    var b := Bootstrap(mock, st, now1);
    if b.current == "" {
      assert b.store[CurrentSessionKey] == Str(b.sessions[0].id);
      assert b.store[CurrentSessionKey := Str(b.sessions[0].id)] == b.store;
    }
  }

  /** Startup over an empty store: one session titled "新聊天", current, holding
      the seed transcript. */
  lemma BootstrapEmptyStore(mock: Mock, now: nat)
    ensures var b := Bootstrap(mock, map[], now);
      && |b.sessions| == 1 && b.sessions[0].title == DefaultTitle
      && b.current == b.sessions[0].id
      && b.data == SessionData(mock.initialMessages, false, "")
  {
  }

  /** Startup does not repair a current id that names no listed session: it is
      kept, and the record loaded for it is the empty one. */
  lemma BootstrapKeepsDanglingId(mock: Mock, now: nat)
    ensures var st := map[SessionListKey := SessionList([Session("session_1", "a", 1)]),
                          CurrentSessionKey := Str("session_2")];
      var b := Bootstrap(mock, st, now);
      && b.current == "session_2"
      && (forall i :: 0 <= i < |b.sessions| ==> b.sessions[i].id != b.current)
      && b.data == EmptySessionData(mock)
  {
    var st := map[SessionListKey := SessionList([Session("session_1", "a", 1)]),
                  CurrentSessionKey := Str("session_2")];
    KeysDistinct("session_2");
    assert ReadSessions(st) == [Session("session_1", "a", 1)];
    assert ReadCurrent(st) == Some("session_2");
    assert "session_1" != "session_2" by { assert "session_1"[8] != "session_2"[8]; }
  }

  /** The save effect (App.jsx:102-109): the live record is written verbatim under
      the current session's key. */
  function Save(a: App): (r: App)
    ensures r.sessions == a.sessions && r.current == a.current && r.live == a.live && r.counter == a.counter
    ensures a.current != "" ==> LoadSessionData(r.store, r.current) == Some(a.live)
    ensures forall k :: k in a.store && k != SessionKey(a.current) ==> k in r.store && r.store[k] == a.store[k]
    ensures ReadSessions(r.store) == ReadSessions(a.store) && ReadCurrent(r.store) == ReadCurrent(a.store)
  {
    KeysDistinct(a.current);
    a.(store := a.store[SessionKey(a.current) := Record(a.live)])
  }

  /** Round trip: what the save effect writes for a session, loading it gives back. */
  lemma SaveThenLoad(mock: Mock, a: App)
    requires a.current != ""
    ensures LoadOrEmpty(mock, Save(a).store, a.current) == a.live
  {
  }

  /** The load effect (App.jsx:112-118), run when the current id changes: the id is
      stored, the live record replaced by the stored one (or the empty one), and the
      save effect this triggers writes that record back. */
  function Activate(mock: Mock, a: App): App
  {
    var st := a.store[CurrentSessionKey := Str(a.current)];
    Save(a.(store := st, live := LoadOrEmpty(mock, st, a.current)))
  }

  /** `setCurrentSessionId(id)`: React skips the update, and so the load effect,
      when the id is unchanged. Only the current-id key and the new current
      session's record are written. */
  function SwitchTo(mock: Mock, a: App, id: string): (r: App)
    ensures r.current == id && r.sessions == a.sessions && r.counter == a.counter
    ensures id == a.current ==> r == a
    ensures id != a.current ==> r.store.Keys == a.store.Keys + {CurrentSessionKey, SessionKey(id)}
    ensures forall k :: k in a.store && k != CurrentSessionKey && k != SessionKey(id) ==> r.store[k] == a.store[k]
    ensures ReadSessions(r.store) == ReadSessions(a.store)
    ensures id != a.current ==> r.live == LoadOrEmpty(mock, a.store, id)
    ensures id != "" && SessionKey(id) in a.store && a.store[SessionKey(id)].Record? ==>
              r.store[SessionKey(id)] == a.store[SessionKey(id)]
  {
    KeysDistinct(id);
    if id == a.current then a else Activate(mock, a.(current := id))
  }

  /** Mounting: the state initialisers bootstrap, then the save and load effects
      run once each. Later renders evaluate `bootstrapSessions` again and drop its
      result, which over a mirrored store writes nothing. */
  function Mount(mock: Mock, st: Storage, now: nat): (a: App)
    ensures |a.sessions| > 0
    ensures a.sessions == Bootstrap(mock, st, now).sessions && a.current == Bootstrap(mock, st, now).current
    ensures a.live == Bootstrap(mock, st, now).data
    ensures a.counter == 1
    ensures forall k :: k in st && k != SessionListKey && k != CurrentSessionKey && k != SessionKey(a.current)
                        && k != SessionKey(NewSessionId(now)) ==>
              k in a.store && a.store[k] == st[k]
  {
    var b := Bootstrap(mock, st, now);
    KeysDistinct(b.current);
    Activate(mock, Save(App(b.sessions, b.current, b.data, 1, b.store)))
  }

  /** `handleSelectSession`: selecting the current session does nothing; any other
      becomes current with its stored record (or the empty one) loaded and written back. */
  function Select(mock: Mock, a: App, id: string): (r: App)
    ensures id == a.current ==> r == a
    ensures id != a.current ==>
              && r.current == id && r.sessions == a.sessions && r.counter == a.counter
              && r.live == LoadOrEmpty(mock, a.store, id)
              && r.store == a.store[CurrentSessionKey := Str(id)][SessionKey(id) := Record(r.live)]
  {
    KeysDistinct(id);
    SwitchTo(mock, a, id)
  }

  /** `createNewSession`: a session titled "新聊天 <n+1>" goes in front, is stored with
      an empty record, and becomes current. */
  function Create(mock: Mock, a: App, now: nat): (r: App)
    ensures |r.sessions| == |a.sessions| + 1
    ensures r.sessions[1..] == a.sessions
    ensures r.sessions[0] == Session(NewSessionId(now), DefaultTitle + " " + Dec(|a.sessions| + 1), now)
    ensures r.current == NewSessionId(now)
    ensures LoadSessionData(r.store, r.current) == Some(EmptySessionData(mock))
    ensures ReadSessions(r.store) == r.sessions
    ensures r.current != a.current ==> r.live == EmptySessionData(mock)
    ensures forall k :: k in a.store && k != SessionListKey && k != CurrentSessionKey && k != SessionKey(NewSessionId(now)) ==>
              k in r.store && r.store[k] == a.store[k]
  {
    var created := NewSession(now, DefaultTitle + " " + Dec(|a.sessions| + 1));
    var next := [created] + a.sessions;
    KeysDistinct(created.id);
    var stored := a.store[SessionListKey := SessionList(next)][SessionKey(created.id) := Record(EmptySessionData(mock))];
    SwitchTo(mock, a.(sessions := next, store := stored), created.id)
  }

  /** `prev.filter(s => s.id !== id)`. */
  function Without(sessions: seq<Session>, id: string): (r: seq<Session>)
    ensures |r| <= |sessions|
    ensures forall i :: 0 <= i < |r| ==> r[i].id != id
    ensures forall i :: 0 <= i < |r| ==> r[i] in sessions
    ensures forall s :: s in sessions && s.id != id ==> s in r
    decreases |sessions|
  {
    if |sessions| == 0 then []
    else (if sessions[0].id == id then [] else [sessions[0]]) + Without(sessions[1..], id)
  }

  /** Filtering keeps relative order: it distributes over concatenation. */
  lemma {:induction false} WithoutConcat(a: seq<Session>, b: seq<Session>, id: string)
    ensures Without(a + b, id) == Without(a, id) + Without(b, id)
    decreases |a|
  {
    if |a| > 0 {
      assert (a + b)[1..] == a[1..] + b;
      WithoutConcat(a[1..], b, id);
    } else {
      assert a + b == b;
    }
  }

  /** Filtering out an id nobody has leaves the list as it was. */
  lemma {:induction false} WithoutAbsent(sessions: seq<Session>, id: string)
    requires forall i :: 0 <= i < |sessions| ==> sessions[i].id != id
    ensures Without(sessions, id) == sessions
    decreases |sessions|
  {
    if |sessions| > 0 {
      WithoutAbsent(sessions[1..], id);
    }
  }

  /** `handleDeleteSession`: the session and its record go; if none is left, one
      fresh "新聊天" session replaces it and becomes current; otherwise deleting
      the current session makes the first remaining one current. */
  function Delete(mock: Mock, a: App, id: string, now: nat): (r: App)
    ensures |r.sessions| > 0
    ensures ReadSessions(r.store) == r.sessions
    ensures NewSessionId(now) != id ==> SessionKey(id) !in r.store
    ensures |Without(a.sessions, id)| == 0 ==>
              && r.sessions == [NewSession(now, DefaultTitle)]
              && r.current == NewSessionId(now)
              && LoadSessionData(r.store, r.current) == Some(EmptySessionData(mock))
    ensures |Without(a.sessions, id)| == 0 && NewSessionId(now) != a.current ==> r.live == EmptySessionData(mock)
    ensures |Without(a.sessions, id)| > 0 ==> r.sessions == Without(a.sessions, id)
    ensures |Without(a.sessions, id)| > 0 && id == a.current ==> r.current == r.sessions[0].id
    ensures |Without(a.sessions, id)| > 0 && id != a.current ==> r.current == a.current && r.live == a.live
    ensures |Without(a.sessions, id)| > 0 && id == a.current ==>
              r.live == LoadOrEmpty(mock, a.store, Without(a.sessions, id)[0].id)
  {
    var next := Without(a.sessions, id);
    var st := a.store - {SessionKey(id)};
    KeysDistinct(id);
    if |next| == 0 then ReplaceLast(mock, a.(store := st), id, now)
    else
      var b := a.(sessions := next, store := st[SessionListKey := SessionList(next)]);
      if id == a.current then
        SessionKeyInjective(next[0].id, id);
        SwitchTo(mock, b, next[0].id)
      else
        b
  }

  /** Deleting a session leaves every other stored record as it was, unless the
      replacement session created when none is left takes that record's key. */
  lemma DeleteKeepsOtherRecords(mock: Mock, a: App, id: string, now: nat, x: string)
    requires x != id && x != NewSessionId(now) && x != ""
    requires SessionKey(x) in a.store && a.store[SessionKey(x)].Record?
    ensures SessionKey(x) in Delete(mock, a, id, now).store
    ensures Delete(mock, a, id, now).store[SessionKey(x)] == a.store[SessionKey(x)]
  {
    KeysDistinct(x);
    SessionKeyInjective(x, id);
    var next := Without(a.sessions, id);
    var st := a.store - {SessionKey(id)};
    if |next| == 0 {
      SessionKeyInjective(x, NewSessionId(now));
      assert Delete(mock, a, id, now) == ReplaceLast(mock, a.(store := st), id, now);
    } else if id == a.current {
      SessionKeyInjective(x, next[0].id);
      var b := a.(sessions := next, store := st[SessionListKey := SessionList(next)]);
      assert Delete(mock, a, id, now) == SwitchTo(mock, b, next[0].id);
    }
  }

  /** The branch of `handleDeleteSession` that removed the last session. */
  function ReplaceLast(mock: Mock, a: App, id: string, now: nat): (r: App)
    requires SessionKey(id) !in a.store
    ensures r.sessions == [NewSession(now, DefaultTitle)] && r.current == NewSessionId(now)
    ensures LoadSessionData(r.store, r.current) == Some(EmptySessionData(mock))
    ensures NewSessionId(now) != a.current ==> r.live == EmptySessionData(mock)
    ensures ReadSessions(r.store) == r.sessions
    ensures NewSessionId(now) != id ==> SessionKey(id) !in r.store
    ensures forall k :: k in a.store && k != SessionListKey && k != CurrentSessionKey && k != SessionKey(NewSessionId(now)) ==>
              k in r.store && r.store[k] == a.store[k]
  {
    var created := NewSession(now, DefaultTitle);
    KeysDistinct(created.id);
    KeysDistinct(id);
    SessionKeyInjective(created.id, id);
    var st := a.store[SessionListKey := SessionList([created])][SessionKey(created.id) := Record(EmptySessionData(mock))];
    SwitchTo(mock, a.(sessions := [created], store := st), created.id)
  }

  /** The title update of the first user message: only the entries of session `id`
      get the new title, all others and the order stay. */
  function Rename(sessions: seq<Session>, id: string, title: string): (r: seq<Session>)
    ensures |r| == |sessions|
    ensures forall i :: 0 <= i < |sessions| ==>
              r[i] == if sessions[i].id == id then sessions[i].(title := title) else sessions[i]
    decreases |sessions|
  {
    if |sessions| == 0 then []
    else [if sessions[0].id == id then sessions[0].(title := title) else sessions[0]] + Rename(sessions[1..], id, title)
  }
}

=== FILE: rules.dfy ===
/** The reply rule engine (`getReplyRule`, App.jsx:151-203): an ordered list
    of keyword rules over the lower-cased input, the first one that fires wins. */
module Rules {
  import opened Strings

  /** What to answer with: a text to type out, or a card to show. */
  datatype Directive = Say(text: string) | ShowCard(cardId: string)

  const Apology: string := "抱歉，我不太明白你的意思"

  /** `card${getRandom(1, 3)}`; the random draw is the parameter `pick`. */
  function CardId(pick: int): (id: string)
    requires 1 <= pick <= 3
    ensures id in {"card1", "card2", "card3"}
  {
    CardIdDigits(pick);
    "card" + Dec(pick)
  }

  lemma CardIdDigits(pick: int)
    requires 1 <= pick <= 3
    ensures "card" + Dec(pick) in {"card1", "card2", "card3"}
  {
    if pick == 1 {
      assert Dec(1) == "1";
      assert "card" + "1" == "card1";
    } else if pick == 2 {
      assert Dec(2) == "2";
      assert "card" + "2" == "card2";
    } else {
      assert Dec(3) == "3";
      assert "card" + "3" == "card3";
    }
  }

  /** Asks to be shown a singer or band card. */
  predicate AsksForCard(t: string)
  {
    Contains(t, "介绍") && (Contains(t, "歌手") || Contains(t, "乐队") || Contains(t, "你喜欢"))
  }

  /** `getReplyRule` as the source writes it: a chain of tests in rule order.
      `replies` is `AiReplyList`, `pick` the value `getRandom(1, 3)` returns. */
  function ReplyRule(replies: seq<string>, userText: string, pick: int): (d: Directive)
    requires |replies| >= 5
    requires 1 <= pick <= 3
    ensures Fires(0, Lower(userText)) ==> d == Say(replies[0])
    ensures d.ShowCard? <==> AsksForCard(Lower(userText)) && forall j :: 0 <= j < 5 ==> !Fires(j, Lower(userText))
    ensures d.ShowCard? ==> d.cardId in {"card1", "card2", "card3"}
    ensures d == Say(Apology) <== forall j :: 0 <= j < 6 ==> !Fires(j, Lower(userText))
  {
    var text := Lower(userText);
    assert Fires(0, text) <==> Contains(text, "hello") || Contains(text, "你好") || Contains(text, "hi");
    assert Fires(1, text) <==> Contains(text, "介绍") && (Contains(text, "你自己") || Contains(text, "你是谁"));
    assert Fires(2, text) <==> Contains(text, "冒泡");
    assert Fires(3, text) <==> Contains(text, "天气");
    assert Fires(4, text) <==> Contains(text, "脚本");
    assert Fires(5, text) <==> AsksForCard(text);
    if Contains(text, "hello") || Contains(text, "你好") || Contains(text, "hi") then
      Say(replies[0])
    else if Contains(text, "介绍") && (Contains(text, "你自己") || Contains(text, "你是谁")) then
      Say(replies[1])
    else if Contains(text, "冒泡") then
      Say(replies[2])
    else if Contains(text, "天气") then
      Say(replies[3])
    else if Contains(text, "脚本") then
      Say(replies[4])
    else if Contains(text, "介绍") && (Contains(text, "歌手") || Contains(text, "乐队") || Contains(text, "你喜欢")) then
      ShowCard(CardId(pick))
    else
      Say(Apology)
  }

  /** The rule table read as data: whether rule `k` (0-based, 6 = the fallback) fires on `t`. */
  predicate Fires(k: nat, t: string)
  {
    match k
    case 0 => Contains(t, "hello") || Contains(t, "你好") || Contains(t, "hi")
    case 1 => Contains(t, "介绍") && (Contains(t, "你自己") || Contains(t, "你是谁"))
    case 2 => Contains(t, "冒泡")
    case 3 => Contains(t, "天气")
    case 4 => Contains(t, "脚本")
    case 5 => AsksForCard(t)
    case _ => true
  }

  /** The answer rule `k` gives. */
  function Outcome(k: nat, replies: seq<string>, pick: int): Directive
    requires |replies| >= 5
    requires 1 <= pick <= 3
  {
    if k < 5 then Say(replies[k]) else if k == 5 then ShowCard(CardId(pick)) else Say(Apology)
  }

  /** The first rule at or after `k` that fires on `t`. */
  function FirstFiringFrom(k: nat, t: string): (f: nat)
    requires k <= 6
    ensures k <= f <= 6
    ensures Fires(f, t)
    ensures forall j :: k <= j < f ==> !Fires(j, t)
    decreases 6 - k
  {
    if Fires(k, t) then k else FirstFiringFrom(k + 1, t)
  }

  /** First match wins: the chained tests give exactly the answer of the first
      rule of the table that fires. */
  lemma ReplyRuleIsFirstMatch(replies: seq<string>, userText: string, pick: int)
    requires |replies| >= 5
    requires 1 <= pick <= 3
    ensures ReplyRule(replies, userText, pick) == Outcome(FirstFiringFrom(0, Lower(userText)), replies, pick)
  {
    var t := Lower(userText);
    var f := FirstFiringFrom(0, t);
    assert forall j :: 0 <= j < f ==> !Fires(j, t);
    if f == 6 {
      assert !Fires(0, t) && !Fires(1, t) && !Fires(2, t) && !Fires(3, t) && !Fires(4, t) && !Fires(5, t);
    }
  }

  /** "hi" fires inside other words: "this" gets the greeting reply. */
  lemma GreetingInsideWord(replies: seq<string>, pick: int)
    requires |replies| >= 5
    requires 1 <= pick <= 3
    ensures ReplyRule(replies, "this", pick) == Say(replies[0])
  {
    LowerNoCapitals("this");
    ContainsAt("this", "hi");
    assert "hi" <= "this"[1..];
  }

  /** A greeting beats a card request: "你好，能否介绍一下歌手" gets the greeting reply. */
  lemma GreetingBeatsCard(replies: seq<string>, pick: int)
    requires |replies| >= 5
    requires 1 <= pick <= 3
    ensures ReplyRule(replies, "你好，能否介绍一下歌手", pick) == Say(replies[0])
  {
    LowerNoCapitals("你好，能否介绍一下歌手");
    assert "你好" <= "你好，能否介绍一下歌手";
  }

  /** Capitals do not matter: "HELLO" gets the greeting reply. */
  lemma GreetingIgnoresCase(replies: seq<string>, pick: int)
    requires |replies| >= 5
    requires 1 <= pick <= 3
    ensures ReplyRule(replies, "HELLO", pick) == Say(replies[0])
  {
    assert Lower("HELLO") == "hello";
  }

  /** "介绍一下乐队" asks for a card and fires no earlier rule, so it gets card `pick`. */
  lemma BandRequestShowsCard(replies: seq<string>, pick: int)
    requires |replies| >= 5
    requires 1 <= pick <= 3
    ensures ReplyRule(replies, "介绍一下乐队", pick) == ShowCard(CardId(pick))
  {
    var t := "介绍一下乐队";
    BandRequestFiresRuleFive();
    ReplyRuleIsFirstMatch(replies, t, pick);
    assert FirstFiringFrom(5, t) == 5;
    assert FirstFiringFrom(0, t) == 5;
  }

  /** Of the rules before the fallback, only the card rule fires on "介绍一下乐队". */
  lemma BandRequestFiresRuleFive()
    ensures Lower("介绍一下乐队") == "介绍一下乐队"
    ensures forall j :: 0 <= j < 5 ==> !Fires(j, "介绍一下乐队")
    ensures Fires(5, "介绍一下乐队")
  {
    LowerNoCapitals("介绍一下乐队");
    BandRequestNoGreeting();
    BandRequestNoTopic();
    BandRequestAsksForCard();
  }

  lemma BandRequestNoGreeting()
    ensures !Fires(0, "介绍一下乐队") && !Fires(1, "介绍一下乐队")
  {
    var t := "介绍一下乐队";
    assert !Contains(t, "hello") by { MissingFirstChar(t, "hello"); }
    assert !Contains(t, "你好") by { MissingFirstChar(t, "你好"); }
    assert !Contains(t, "hi") by { MissingFirstChar(t, "hi"); }
    assert !Contains(t, "你自己") by { MissingFirstChar(t, "你自己"); }
    assert !Contains(t, "你是谁") by { MissingFirstChar(t, "你是谁"); }
  }

  lemma BandRequestNoTopic()
    ensures !Fires(2, "介绍一下乐队") && !Fires(3, "介绍一下乐队") && !Fires(4, "介绍一下乐队")
  {
    var t := "介绍一下乐队";
    assert !Contains(t, "冒泡") by { MissingFirstChar(t, "冒泡"); }
    assert !Contains(t, "天气") by { MissingFirstChar(t, "天气"); }
    assert !Contains(t, "脚本") by { MissingFirstChar(t, "脚本"); }
  }

  lemma BandRequestAsksForCard()
    ensures Fires(5, "介绍一下乐队")
  {
    var t := "介绍一下乐队";
    assert Contains(t, "乐队") by {
      ContainsAt(t, "乐队");
      assert "乐队" <= t[4..];
    }
    assert Contains(t, "介绍") by {
      assert "介绍" <= t;
    }
  }
}

=== FILE: strings.dfy ===
/** String helpers standing in for the JavaScript string methods the chat core
    relies on: `includes`, `toLowerCase`, `trim`, `slice` and decimal rendering
    of a number inside a template string. */
module Strings {

  /** `s.includes(p)`: `p` occurs somewhere in `s` as a contiguous run. */
  predicate Contains(s: string, p: string)
    decreases |s|
  {
    p <= s || (|s| > 0 && Contains(s[1..], p))
  }

  /** The recursive definition agrees with the positional reading of `includes`. */
  lemma {:induction false} ContainsAt(s: string, p: string)
    ensures Contains(s, p) <==> exists i :: 0 <= i <= |s| && p <= s[i..]
    decreases |s|
  {
    if p <= s {
      assert s[0..] == s;
    } else if |s| == 0 {
      forall i | 0 <= i <= |s|
        ensures !(p <= s[i..])
      {
        assert s[i..] == s;
      }
    } else {
      ContainsAt(s[1..], p);
      if Contains(s[1..], p) {
        var j :| 0 <= j <= |s[1..]| && p <= s[1..][j..];
        assert s[1..][j..] == s[j + 1..];
      }
      if exists i :: 0 <= i <= |s| && p <= s[i..] {
        var i :| 0 <= i <= |s| && p <= s[i..];
        assert s[0..] == s;
        assert i >= 1;
        assert s[1..][i - 1..] == s[i..];
      }
    }
  }

  /** A string in which the first character of `p` never occurs cannot contain `p`. */
  lemma {:induction false} MissingFirstChar(s: string, p: string)
    requires |p| > 0
    requires forall i :: 0 <= i < |s| ==> s[i] != p[0]
    ensures !Contains(s, p)
    decreases |s|
  {
    if |s| > 0 {
      assert !(p <= s) by { assert s[0] != p[0]; }
      MissingFirstChar(s[1..], p);
    }
  }

  /** `toLowerCase` on one character; only the ASCII letters A-Z are mapped. */
  function LowerChar(c: char): char
  {
    if 'A' <= c <= 'Z' then (c as int + 32) as char else c
  }

  /** `toLowerCase`, character by character. */
  function Lower(s: string): (r: string)
    ensures |r| == |s|
    ensures forall i :: 0 <= i < |s| ==> r[i] == LowerChar(s[i])
  {
    seq(|s|, i requires 0 <= i < |s| => LowerChar(s[i]))
  }

  /** A string with no ASCII capital letter is its own lower-case form. */
  lemma LowerNoCapitals(s: string)
    requires forall i :: 0 <= i < |s| ==> !('A' <= s[i] <= 'Z')
    ensures Lower(s) == s
  {
    assert forall i :: 0 <= i < |s| ==> Lower(s)[i] == s[i];
  }

  /** The characters `trim` removes: ECMAScript WhiteSpace and LineTerminator. */
  predicate IsSpace(c: char)
  {
    || c == '\t' || c == '\n' || c == '\U{000B}' || c == '\U{000C}' || c == '\r'
    || c == ' ' || c == '\U{00A0}' || c == '\U{1680}'
    || ('\U{2000}' <= c <= '\U{200A}')
    || c == '\U{2028}' || c == '\U{2029}' || c == '\U{202F}' || c == '\U{205F}'
    || c == '\U{3000}' || c == '\U{FEFF}'
  }

  predicate AllSpace(s: string)
  {
    forall i :: 0 <= i < |s| ==> IsSpace(s[i])
  }

  /** `trimStart`: drops leading whitespace; what it drops is all whitespace and
      what it keeps is a suffix that does not start with whitespace. */
  function TrimStart(s: string): (r: string)
    ensures |r| <= |s|
    ensures r == s[|s| - |r|..]
    ensures AllSpace(s[..|s| - |r|])
    ensures r != [] ==> !IsSpace(r[0])
    decreases |s|
  {
    if |s| > 0 && IsSpace(s[0]) then
      var r := TrimStart(s[1..]);
      TrimStartStep(s, r);
      r
    else s
  }

  /** `trimEnd`: drops trailing whitespace; what it drops is all whitespace and
      what it keeps is a prefix that does not end with whitespace. */
  function TrimEnd(s: string): (r: string)
    ensures |r| <= |s|
    ensures r == s[..|r|]
    ensures AllSpace(s[|r|..])
    ensures r != [] ==> !IsSpace(r[|r| - 1])
    decreases |s|
  {
    if |s| > 0 && IsSpace(s[|s| - 1]) then
      var r := TrimEnd(s[..|s| - 1]);
      TrimEndStep(s, r);
      r
    else s
  }

  /** A suffix of `s` after its whitespace first character, with an all-whitespace
      margin before it, is a suffix of `s` with one more character of margin. */
  lemma TrimStartStep(s: string, r: string)
    requires |s| > 0 && IsSpace(s[0])
    requires |r| <= |s| - 1 && r == s[1..][|s| - 1 - |r|..] && AllSpace(s[1..][..|s| - 1 - |r|])
    ensures r == s[|s| - |r|..] && AllSpace(s[..|s| - |r|])
  {
    assert s[1..][|s| - 1 - |r|..] == s[|s| - |r|..];
    assert s[1..][..|s| - 1 - |r|] == s[1..|s| - |r|];
  }

  /** The mirror image for `trimEnd`. */
  lemma TrimEndStep(s: string, r: string)
    requires |s| > 0 && IsSpace(s[|s| - 1])
    requires |r| <= |s| - 1 && r == s[..|s| - 1][..|r|] && AllSpace(s[..|s| - 1][|r|..])
    ensures r == s[..|r|] && AllSpace(s[|r|..])
  {
    assert s[..|s| - 1][..|r|] == s[..|r|];
    assert s[..|s| - 1][|r|..] == s[|r|..|s| - 1];
  }

  /** Two all-whitespace strings joined are all whitespace. */
  lemma AllSpaceConcat(a: string, b: string)
    requires AllSpace(a) && AllSpace(b)
    ensures AllSpace(a + b)
  {
  }

  /** `s.trim()`. */
  function Trim(s: string): string
  {
    TrimEnd(TrimStart(s))
  }

  /** What `trim` returns: the infix of `s` that neither starts nor ends with
      whitespace, cut out between two all-whitespace margins; empty exactly when
      `s` is all whitespace. */
  lemma TrimSpec(s: string)
    ensures |Trim(s)| <= |s|
    ensures Trim(s) == [] <==> AllSpace(s)
    ensures Trim(s) != [] ==> !IsSpace(Trim(s)[0]) && !IsSpace(Trim(s)[|Trim(s)| - 1])
    ensures exists i :: 0 <= i <= |s| - |Trim(s)| && Trim(s) == s[i..i + |Trim(s)|]
                        && AllSpace(s[..i]) && AllSpace(s[i + |Trim(s)|..])
  {
    TrimMargins(s, TrimStart(s), Trim(s));
  }

  /** The facts behind `Trim`: a prefix `r` of a suffix `t` of `s`, with
      all-whitespace margins around it. */
  lemma TrimMargins(s: string, t: string, r: string)
    requires |t| <= |s| && t == s[|s| - |t|..] && AllSpace(s[..|s| - |t|])
    requires |r| <= |t| && r == t[..|r|] && AllSpace(t[|r|..])
    requires t != [] ==> !IsSpace(t[0])
    requires r != [] ==> !IsSpace(r[|r| - 1])
    ensures |r| <= |s|
    ensures r == [] <==> AllSpace(s)
    ensures r != [] ==> !IsSpace(r[0]) && !IsSpace(r[|r| - 1])
    ensures exists i :: 0 <= i <= |s| - |r| && r == s[i..i + |r|]
                        && AllSpace(s[..i]) && AllSpace(s[i + |r|..])
  {
    var i := |s| - |t|;
    assert s[i + |r|..] == t[|r|..];
    assert r == s[i..i + |r|];
    if r == [] {
      assert s == s[..i] + t[|r|..];
      AllSpaceConcat(s[..i], t[|r|..]);
    } else {
      assert !AllSpace(s) by {
        assert s[i] == t[0];
        assert t[0] == r[0];
      }
    }
  }

  /** A string that neither starts nor ends with whitespace is its own trim. */
  lemma TrimNoSpaceEnds(s: string)
    requires |s| > 0 && !IsSpace(s[0]) && !IsSpace(s[|s| - 1])
    ensures Trim(s) == s
  {
    assert TrimStart(s) == s;
    assert TrimEnd(s) == s;
  }

  /** Trimming twice is trimming once. */
  lemma TrimIdempotent(s: string)
    ensures Trim(Trim(s)) == Trim(s)
  {
    var r := Trim(s);
    TrimSpec(s);
    if r != [] {
      TrimNoSpaceEnds(r);
    }
  }

  /** The session title made from a first message (App.jsx:305): the whole text
      when it has at most 20 characters, otherwise its first 20 followed by "...". */
  function Title(text: string): (t: string)
    ensures |text| <= 20 ==> t == text
    ensures |text| > 20 ==> |t| == 23 && t[..20] == text[..20] && t[20..] == "..."
  {
    if |text| > 20 then text[..20] + "..." else text
  }

  /** A decimal digit character. */
  function Digit(d: nat): (c: char)
    requires d < 10
  {
    (48 + d) as char
  }

  /** The decimal rendering of a natural number inside a template string. */
  function Dec(n: nat): (r: string)
    ensures 1 <= |r|
    ensures n < 10 <==> |r| == 1
    ensures forall i :: 0 <= i < |r| ==> '0' <= r[i] <= '9'
  {
    if n < 10 then [Digit(n)] else Dec(n / 10) + [Digit(n % 10)]
  }

  /** Distinct numbers render as distinct strings. */
  lemma {:induction false} DecInjective(a: nat, b: nat)
    ensures Dec(a) == Dec(b) ==> a == b
    decreases a
  {
    if Dec(a) == Dec(b) && a >= 10 && b >= 10 {
      var da, db := Dec(a), Dec(b);
      assert da[|da| - 1] == Digit(a % 10);
      assert db[|db| - 1] == Digit(b % 10);
      assert Dec(a / 10) == da[..|da| - 1];
      assert Dec(b / 10) == db[..|db| - 1];
      DecInjective(a / 10, b / 10);
    } else if Dec(a) == Dec(b) && a < 10 && b < 10 {
      assert Dec(a)[0] == Digit(a);
    }
  }
}

=== FILE: typewriter.dfy ===
/** The typewriter reveal (`typeWrite`, App.jsx:206-241) and the card rewrite
    (App.jsx:359-373): in-place updates of the messages carrying one id. The
    interval timer is a `Typer` value; each firing is one `Tick`. */
module Typewriter {
  import opened Model

  /** The three ways the reply logic rewrites an assistant message. */
  datatype Patch =
    | BeginTyping                           // status 'typing', content ''
    | ShowPrefix(reply: string, upTo: nat)  // content reply.slice(0, upTo), 'sent' once upTo is the length
    | MakeCard(cardId: string)              // type 'card', status 'sent', cardId, content ''

  /** `s.slice(0, k)` for a non-negative `k`. */
  function Prefix(s: string, k: nat): (p: string)
    ensures p <= s
    ensures |p| == if k <= |s| then k else |s|
  {
    if k <= |s| then s[..k] else s
  }

  /** The object spread `{ ...m, <fields> }` for each patch. */
  function Apply(p: Patch, m: Message): Message
  {
    match p
    case BeginTyping => m.(status := Typing, content := "")
    case ShowPrefix(reply, k) => m.(content := Prefix(reply, k), status := if k == |reply| then Sent else Typing)
    case MakeCard(c) => m.(kind := CardKind, status := Sent, cardId := Some(c), content := "")
  }

  /** `msgs.map(m => m.id === id ? patched(m) : m)`: every message carrying `id`
      is patched, every other one is kept, in place. */
  function UpdateById(msgs: seq<Message>, id: string, p: Patch): (r: seq<Message>)
    ensures |r| == |msgs|
    ensures forall i :: 0 <= i < |msgs| && msgs[i].id != id ==> r[i] == msgs[i]
    ensures forall i :: 0 <= i < |msgs| && msgs[i].id == id ==> r[i] == Apply(p, msgs[i])
    decreases |msgs|
  {
    if |msgs| == 0 then []
    else [if msgs[0].id == id then Apply(p, msgs[0]) else msgs[0]] + UpdateById(msgs[1..], id, p)
  }

  /** A write aimed at an id that is not in the list changes nothing, so a timer
      that outlives its message is harmless. */
  lemma UpdateMissingId(msgs: seq<Message>, id: string, p: Patch)
    requires forall i :: 0 <= i < |msgs| ==> msgs[i].id != id
    ensures UpdateById(msgs, id, p) == msgs
  {
  }

  /** The card rewrite turns every message carrying `id` into a sent card with an
      empty content and touches nothing else. */
  lemma CardRewrite(msgs: seq<Message>, id: string, cardId: string)
    ensures var r := UpdateById(msgs, id, MakeCard(cardId));
      && |r| == |msgs|
      && (forall i :: 0 <= i < |msgs| && msgs[i].id != id ==> r[i] == msgs[i])
      && (forall i :: 0 <= i < |msgs| && msgs[i].id == id ==>
            && r[i].kind == CardKind && r[i].status == Sent
            && r[i].cardId == Some(cardId) && r[i].content == ""
            && r[i].id == msgs[i].id && r[i].role == msgs[i].role
            && r[i].createdAt == msgs[i].createdAt)
  {
  }

  /** One `setInterval` reveal: the message it writes to, the full reply, the
      closure's `index`, and whether the interval is still set. */
  datatype Typer = Typer(msgId: string, reply: string, index: nat, running: bool)

  /** The synchronous part of `typeWrite`: the target becomes 'typing' with an empty
      content, and the interval is set with `index` at 0. */
  function StartTyping(msgs: seq<Message>, id: string, reply: string): (seq<Message>, Typer)
  {
    (UpdateById(msgs, id, BeginTyping), Typer(id, reply, 0, true))
  }

  /** One firing of the interval against whatever list is live at that moment:
      `index++`, the target shows the first `index` characters, and once `index`
      equals the reply's length the target is 'sent' and the interval cleared.
      A cleared interval never fires again. */
  function Tick(msgs: seq<Message>, t: Typer): (r: (seq<Message>, Typer))
    ensures |r.0| == |msgs|
    ensures forall i :: 0 <= i < |msgs| && msgs[i].id != t.msgId ==> r.0[i] == msgs[i]
    ensures r.1.msgId == t.msgId && r.1.reply == t.reply
    ensures !t.running ==> r == (msgs, t)
    ensures t.running ==> r.1.index == t.index + 1
    ensures t.running ==> forall i :: 0 <= i < |msgs| && msgs[i].id == t.msgId ==>
              r.0[i].content == Prefix(t.reply, t.index + 1)
              && (r.0[i].status == Sent <==> !r.1.running)
  {
    if !t.running then (msgs, t)
    else
      var k := t.index + 1;
      (UpdateById(msgs, t.msgId, ShowPrefix(t.reply, k)), t.(index := k, running := k != |t.reply|))
  }

  /** A firing whose message is gone, because the session was switched or the
      message deleted, leaves the live list exactly as it was. */
  lemma StaleTickHarmless(msgs: seq<Message>, t: Typer)
    requires forall i :: 0 <= i < |msgs| ==> msgs[i].id != t.msgId
    ensures Tick(msgs, t).0 == msgs
  {
    if t.running {
      UpdateMissingId(msgs, t.msgId, ShowPrefix(t.reply, t.index + 1));
    }
  }

  /** The list and timer after `k` firings with no other change in between. */
  function Ticks(msgs: seq<Message>, t: Typer, k: nat): (r: (seq<Message>, Typer))
    ensures |r.0| == |msgs|
    ensures r.1.msgId == t.msgId && r.1.reply == t.reply
    ensures forall i :: 0 <= i < |msgs| && msgs[i].id != t.msgId ==> r.0[i] == msgs[i]
    decreases k
  {
    if k == 0 then (msgs, t)
    else
      var (m, u) := Ticks(msgs, t, k - 1);
      Tick(m, u)
  }

  function Min(a: nat, b: nat): nat
  {
    if a <= b then a else b
  }

  /** The state of the reveal of `reply` into the messages carrying `id` after `k`
      firings: each such message shows the first min(k, |reply|) characters and is
      'sent' exactly when the reply is non-empty and fully shown; the interval is
      then cleared; every other message is as it was in `msgs`. */
  predicate Revealed(msgs: seq<Message>, id: string, reply: string, k: nat, ms: seq<Message>, t: Typer)
  {
    && |ms| == |msgs|
    && t.msgId == id && t.reply == reply
    && (t.running <==> |reply| == 0 || k < |reply|)
    && t.index == (if t.running then k else |reply|)
    && (forall i :: 0 <= i < |msgs| && msgs[i].id != id ==> ms[i] == msgs[i])
    && (forall i :: 0 <= i < |msgs| && msgs[i].id == id ==>
          ms[i] == msgs[i].(content := reply[..Min(k, |reply|)],
                            status := if 0 < |reply| <= k then Sent else Typing))
  }

  /** The whole reveal after `k` firings with no other change in between. An empty
      reply keeps its target 'typing' and its interval set for ever. */
  lemma {:induction false} RevealAfter(msgs: seq<Message>, id: string, reply: string, k: nat)
    ensures var r := Ticks(UpdateById(msgs, id, BeginTyping), Typer(id, reply, 0, true), k);
      Revealed(msgs, id, reply, k, r.0, r.1)
    decreases k
  {
    if k == 0 {
      assert reply[..0] == "";
    } else {
      RevealAfter(msgs, id, reply, k - 1);
      var r := Ticks(UpdateById(msgs, id, BeginTyping), Typer(id, reply, 0, true), k - 1);
      RevealStep(msgs, id, reply, k, r.0, r.1);
    }
  }

  /** One firing takes the reveal from `k - 1` firings to `k`. */
  lemma RevealStep(msgs: seq<Message>, id: string, reply: string, k: nat, ms: seq<Message>, t: Typer)
    requires k > 0
    requires Revealed(msgs, id, reply, k - 1, ms, t)
    ensures Revealed(msgs, id, reply, k, Tick(ms, t).0, Tick(ms, t).1)
  {
    if t.running {
      assert Prefix(reply, k) == reply[..Min(k, |reply|)];
    } else {
      assert Min(k - 1, |reply|) == Min(k, |reply|);
    }
  }

  /** Reveal progress: after k firings, 1 <= k <= |reply|, the target holds exactly
      the first k characters, is 'sent' exactly when k = |reply|, and the interval
      is still set exactly when k < |reply|. */
  lemma RevealProgress(msgs: seq<Message>, p: nat, reply: string, k: nat)
    requires p < |msgs|
    requires 1 <= k <= |reply|
    ensures var (ms, t) := Ticks(UpdateById(msgs, msgs[p].id, BeginTyping), Typer(msgs[p].id, reply, 0, true), k);
      && ms[p].content == reply[..k]
      && (ms[p].status == Sent <==> k == |reply|)
      && (t.running <==> k < |reply|)
  {
    RevealAfter(msgs, msgs[p].id, reply, k);
  }

  /** The reveal never goes backwards: between k1 and k2 >= k1 firings the target's
      content only grows, as an extension of what was shown, and its status only
      advances. */
  lemma RevealMonotone(msgs: seq<Message>, p: nat, reply: string, k1: nat, k2: nat)
    requires p < |msgs|
    requires k1 <= k2
    ensures var a := Ticks(UpdateById(msgs, msgs[p].id, BeginTyping), Typer(msgs[p].id, reply, 0, true), k1).0;
      var b := Ticks(UpdateById(msgs, msgs[p].id, BeginTyping), Typer(msgs[p].id, reply, 0, true), k2).0;
      && |a[p].content| <= |b[p].content|
      && a[p].content <= b[p].content
      && Rank(a[p].status) <= Rank(b[p].status)
  {
    RevealAt(msgs, p, reply, k1);
    RevealAt(msgs, p, reply, k2);
    ShownGrows(reply, k1, k2);
  }

  /** What is shown after k1 firings is a prefix of what is shown after k2 >= k1. */
  lemma ShownGrows(reply: string, k1: nat, k2: nat)
    requires k1 <= k2
    ensures reply[..Min(k1, |reply|)] <= reply[..Min(k2, |reply|)]
  {
    var n1, n2 := Min(k1, |reply|), Min(k2, |reply|);
    assert reply[..n1] == reply[..n2][..n1];
  }

  /** The target after `k` firings, read off the whole-list characterisation. */
  lemma RevealAt(msgs: seq<Message>, p: nat, reply: string, k: nat)
    requires p < |msgs|
    ensures var ms := Ticks(UpdateById(msgs, msgs[p].id, BeginTyping), Typer(msgs[p].id, reply, 0, true), k).0;
      && p < |ms|
      && ms[p].content == reply[..Min(k, |reply|)]
      && ms[p].status == if 0 < |reply| <= k then Sent else Typing
  {
    RevealAfter(msgs, msgs[p].id, reply, k);
  }

  /** An empty reply is never finished: whatever the number of firings, the target
      stays 'typing' with empty content and the interval is never cleared. */
  lemma EmptyReplyNeverSent(msgs: seq<Message>, p: nat, k: nat)
    requires p < |msgs|
    ensures var (ms, t) := Ticks(UpdateById(msgs, msgs[p].id, BeginTyping), Typer(msgs[p].id, "", 0, true), k);
      && ms[p].status == Typing && ms[p].content == "" && t.running
  {
    RevealAfter(msgs, msgs[p].id, "", k);
  }

  /** Once a non-empty reply is fully shown, further firings change nothing. */
  lemma RevealStops(msgs: seq<Message>, id: string, reply: string, k: nat)
    requires 0 < |reply| <= k
    ensures Ticks(UpdateById(msgs, id, BeginTyping), Typer(id, reply, 0, true), k)
         == Ticks(UpdateById(msgs, id, BeginTyping), Typer(id, reply, 0, true), |reply|)
  {
    RevealAfter(msgs, id, reply, k);
    RevealAfter(msgs, id, reply, |reply|);
    var (a, t) := Ticks(UpdateById(msgs, id, BeginTyping), Typer(id, reply, 0, true), k);
    var (b, u) := Ticks(UpdateById(msgs, id, BeginTyping), Typer(id, reply, 0, true), |reply|);
    assert a == b;
  }
}
